=== FILE: README.md ===
# Brunswick calendar: a Dafny model

The calendar page (`script.js`) draws one month as a grid of day cells. It marks the days
that have photos, and it opens a draggable popup listing a day's photos when the day is
clicked. This project models the rules inside that page as pure Dafny functions and small
immutable records, and proves their properties:

- **Month navigation** (`navigation.dfy`, module `Navigation`). The viewed `(year, month)`
  pair and the previous/next buttons, which wrap the 0-based month into the adjacent year.
- **Calendar dates** (`gregorian.dfy`, module `Gregorian`). The proleptic Gregorian
  arithmetic behind `new Date(y, m, d)`, `getDay()` and "day 0 of the next month", written
  after the day-number functions of ECMA-262 (section 21.4.1, `DayFromYear`, `MakeDay`,
  `WeekDay`). It also models the `Date` constructor's rule that maps years 0..99 to
  1900..1999.
- **Text of numbers** (`decimal.dfy`, module `Decimal`). How a template literal writes an
  integer, and a reader that recovers the integer from that text.
- **Asset addressing** (`assets.dfy`, module `Assets`). The image paths
  `assets/{year}/{month+1}/day{d}{letter}.jpg`, the 26 lettered probes of a day cell, the
  27 probes of a popup, and the popup title `Events for {month+1}/{day}/{year}`. Each text
  has a parser that is proved to invert it.
- **Month grid** (`calendar.dfy`, module `Calendar`). The header `{MonthName} {year}`, the
  leading blanks, the day cells and their past/today/future class. It also covers the
  `has-image` marking, modelled as a fold over an arbitrary sequence of probe loads.
- **Day popup** (`popup.dfy`, module `DayPopup`). A state machine over arbitrary sequences of
  three events: open a popup for a day, press a popup's close button, and a probe of some
  popup finishes loading. The `Page` holds every `Popup` element ever created, whether each
  is in the document, and `currentIframe`. Each popup keeps its `images` list and re-renders
  after every push. `FirstLoads` is a reference, read off the events alone, for which probes
  reach a popup's `images` and in what order.

Inputs the page reads from its surroundings become parameters. Today's date is a `Clock`
value. Image loading is a sequence of "probe P loaded" events. The weekday of the 1st is
computed by the Gregorian arithmetic, not read from a clock.

Where the code and its intended design differ, the model follows the code:

- A day cell probes only the 26 lettered variants, never the base image (script.js:58-70).
  A day whose only photo is `day5.jpg` is therefore not marked.
- `renderImages` runs only right after a push (script.js:133, 140). Its "No events posted."
  branch can never run, so a popup whose probes all fail shows only its header.
- The close button only removes the element (script.js:94). It does not clear
  `currentIframe`, and probe callbacks have no staleness guard. Loads for a closed or
  replaced popup still push to its own `images` and re-render its detached element. The
  model does the same: every `Load` event updates the popup it belongs to, attached or not.
- Cells from an earlier render are never guarded either. A late load marks its own
  (discarded) cell record, which the model keeps separate per render.

Each `Image` fires `onload` at most once. The popup model therefore records which of its
probes have fired, and a second load of the same probe changes nothing.

## Model

| member | source | states |
|---|---|---|
| Navigation.Next | script.js:186-193 | from month 11 (or above) the view moves to January of the next year; otherwise the month goes up by one in the same year; a view with month in 0..11 stays in 0..11 and moves exactly one month forward on the timeline |
| Navigation.Prev | script.js:177-184 | from month 0 (or below) the view moves to December of the previous year; otherwise the month goes down by one in the same year; a view with month in 0..11 stays in 0..11 and moves exactly one month back |
| Navigation.PrevNextInverse | script.js:177-193 | for every valid view, previous after next and next after previous give back the same view |
| Navigation.PressesMoveAlongTimeline | script.js:177-193 | any number k of presses of either button keeps the month in 0..11 and moves the view exactly k months along the timeline |
| Navigation.OrdinalInjective | script.js:5-8 | two valid views at the same timeline position are the same (year, month) pair |
| Gregorian.DaysInMonth | script.js:34 | every month has 28 to 31 days; February has 29 days in leap years and 28 otherwise; April, June, September and November have 30; the 31-day months are January, March, May, July, August, October, December |
| Gregorian.WeekDay | script.js:33 | a day number maps to a weekday index 0..6, 0 being Sunday |
| Gregorian.WeekDayShift | script.js:33 | moving n days ahead moves the weekday index n places, modulo 7 |
| Gregorian.FirstWeekday | script.js:33 | the weekday of the 1st of a month is an index 0..6 |
| Gregorian.MakeDayDates | script.js:33-34 | the day number of a date in a month moves one for one with the date, including date 0 and dates past the month's end |
| Gregorian.ConstructorYear | script.js:33-34 | the year the `Date` constructor uses is never in 0..99: a year in 0..99 gains 1900, and every other year is kept |
| Gregorian.DayZeroOfNextMonth | script.js:34 | date 0 of month m+1 is the same day as date DaysInMonth(y, m) of month m, including when month 12 rolls into the next year; this is why `new Date(y, m + 1, 0).getDate()` is the month's length |
| Gregorian.DayFromYearStep | script.js:33-34 | 1 January of year y+1 comes exactly DaysInYear(y) days after 1 January of year y, for every integer year |
| Gregorian.DaysBeforeMonthStep | script.js:33-34 | the cumulative month table grows by each month's length and the twelve months add up to the year's length |
| Gregorian.FirstWeekdayOfNextMonth | script.js:33 | the weekday of the 1st of the next month is the weekday of this month's 1st advanced by this month's length, modulo 7 |
| Gregorian.EpochIsThursday | script.js:33 | day 0 of the count is 1 January 1970, a Thursday |
| Gregorian.KnownWeekdays2024 | script.js:33 | 1 January 2024 is a Monday and 1 February 2024 a Thursday |
| Gregorian.KnownFebruaries | script.js:34 | February 2024 has 29 days and February 2023 has 28 |
| Decimal.IntToString | script.js:69 | the text of an integer is non-empty; it starts with a minus sign exactly for negative values, and a non-negative value is all digits |
| Decimal.NatToString | script.js:69 | the text of a natural number is a non-empty string of digits, starting with '0' only for zero |
| Decimal.ReadIntOfIntToString | script.js:69 | the text a template literal gives any integer (with a minus sign when negative) reads back as that integer when a non-digit follows it |
| Assets.ParsePathOfAssetPath | script.js:69 | every candidate image path reads back as the year, 0-based month, day and variant (base or letter) it was built from |
| Assets.AssetPathInjective | script.js:131-138 | two candidates with the same path are the same candidate, so paths of different days or variants never collide |
| Assets.LettersAreTheAlphabet | script.js:58 | the variant letters are the 26 letters 'a' to 'z', in alphabetical order |
| Assets.PopupProbesDistinct | script.js:105-141 | the popup probes 27 pairwise distinct paths: first the base image, then variants a to z, each reading back as an asset of the clicked year, month and day |
| Assets.LetteredProbes | script.js:58-70 | a day cell probes one path per letter, 26 in all |
| Assets.PopupProbes | script.js:130-142 | a popup probes the base image and one path per letter, 27 in all |
| Assets.LetteredProbesAreLettered | script.js:58-70 | every path a day cell probes is a lettered variant of that same day and never a base image |
| Assets.ParseTitleOfTitle | script.js:90 | the popup title reads back as the day it was opened for (1-based month in the text, 0-based in the value) |
| Calendar.ParseHeaderOfMonthHeader | script.js:28 | the month header reads back as the viewed year and month, so different views get different headers |
| Calendar.InitialView | script.js:6-8 | the page opens on the current month of the clock, and on a valid view whenever the clock's month is in 0..11 |
| Calendar.OpeningViewShowsToday | script.js:6-8 | on the opening view the clock's date is the only day classed "today", and exactly the earlier days are "past" |
| Calendar.Classify | script.js:49-55 | a day is past iff the view is the current month and the day is before today's date; today iff it is the current month and the day equals today's date; future otherwise, which includes every day of any other month |
| Calendar.LeadingBlanks | script.js:33 | the number of blanks before the 1st is a weekday index 0..6 (corrected for years 0..99; see ## Findings) |
| Calendar.MonthLength | script.js:34 | a grid has 28 to 31 day cells; a February grid has 29 exactly in leap years (corrected for years 0..99; see ## Findings) |
| Calendar.RenderCalendar | script.js:25-56 | the grid is exactly the weekday-of-the-1st many blanks followed by the days 1..n in order, where n is the month's length; each day gets its class and starts unmarked; exactly one cell is "today" when today's date falls in the viewed month, none otherwise (corrected for years 0..99; see ## Findings) |
| Calendar.LeadingBlanksOfNextView | script.js:33-34 | the next view's blanks continue where this month's days end, so consecutive grids line up week by week, across year ends and for every year (corrected for years 0..99; see ## Findings) |
| Calendar.LeadingBlanksAsWritten | script.js:33 | as written, the blanks of a view with year 0..99 are those of year 1900..1999; for other years they are the viewed year's |
| Calendar.MonthLengthAsWritten | script.js:34 | as written, the day count of a view with year 0..99 is that of year 1900..1999; for other years it is the viewed year's |
| Calendar.YearZeroFebruaryAsWritten | script.js:28-34 | the view headed "February 0" shows 28 days as written, although year 0 is a leap year with a 29-day February |
| Calendar.CenturyStepAsWritten | script.js:33-34 | as written, stepping from December 99 to January 100 breaks the weekday continuity of consecutive grids |
| Calendar.MarkLoaded | script.js:63-67 | a lettered probe's onload sets the cell's flag, and adds `has-image` only if the flag was not set yet; it changes nothing else |
| Calendar.DeliverLoad | script.js:61-69 | one loaded path changes only the day cells whose closures probed it, and those end marked with their date and class unchanged; every other cell stays as it was |
| Calendar.DeliverLoadsMarks | script.js:58-70 | over any loads in arrival order, each cell's flag agrees with its count of `has-image` additions; a day ends marked exactly when it was marked before or one of its lettered variants loaded; blanks, dates and classes stay |
| Calendar.HasImageAddedAtMostOnce | script.js:58-70 | after a render and any sequence of probe loads, each day cell has `has-image` added at most once, and it is added exactly when one of that day's lettered variants loaded |
| Calendar.BaseLoadsNeverMark | script.js:58-70 | loads of base images, for any day, never mark any day cell |
| DayPopup.RenderImages | script.js:108-128 | removing the last child while more than one remains, then appending, leaves the first child followed by the message when the list is empty, and otherwise by one image per entry in list order |
| DayPopup.Detach | script.js:83 | removing a popup element takes exactly that popup out of the document and changes no other popup |
| DayPopup.NewPopupOk | script.js:85-101 | a freshly opened popup is well formed: its title header, no images, its day's 27 probes |
| DayPopup.OpenReplaces | script.js:82-101 | opening a popup removes the previous one from the document; afterwards exactly one popup is attached, it is the new current one, and it shows only its header |
| DayPopup.CloseDetaches | script.js:92-94 | the close button removes its own popup from the document and nothing else: `currentIframe` still names it, its images and children stay, other popups are unchanged; closing the current popup leaves none in the document |
| DayPopup.LoadedOk | script.js:108-141 | a probe's `onload` keeps a popup well formed: it still shows its header and then exactly its images |
| DayPopup.LoadPushes | script.js:130-141 | a probe's first load appends its path to its own popup's images and one picture to what it shows; `currentIframe`, whether the popup is in the document, and every other popup stay the same |
| DayPopup.RepeatedLoadIgnored | script.js:132-141 | a second load of a probe that already fired, or a load for a popup that does not exist, changes nothing |
| DayPopup.StepOk | script.js:82-141 | every event keeps the page well formed: each popup shows its header then exactly its images, `currentIframe` names the newest popup, and only it can be in the document |
| DayPopup.RunOk | script.js:82-141 | any sequence of events keeps the page well formed |
| DayPopup.ReachablePage | script.js:83-143 | after any events, at most one popup is attached and it is the current one; every popup shows its header followed by exactly its images; "No events posted." never appears; no popup lists an image twice |
| DayPopup.PopupShows | script.js:108-127 | a well-formed popup's first child is its title header, the rest are exactly its images, and none is the "No events posted." message |
| DayPopup.StepAppendOnly | script.js:130-141 | one event never removes or reorders a popup's images, never replaces its header, and never changes the day it was opened for |
| DayPopup.RunAppendOnly | script.js:130-141 | any events only append to a popup's image list and never change its header child |
| DayPopup.FirstLoads | script.js:130-141 | the reference order of a popup's loads holds probe indices 0..26, each at most once, none fired before |
| DayPopup.RunFires | script.js:130-141 | after any events, each popup has fired exactly the probes the reference reads off the events, in arrival order |
| DayPopup.ImagesFollowLoads | script.js:106-141 | a popup's images are the paths of its probes in the order their first loads arrive among the events, and each is an asset of the popup's own day |
| DayPopup.ImagesAreLoadedProbes | script.js:130-141 | a path is among a popup's images exactly when some load event of that popup, made after it was opened, is for a probe with that path |
| DayPopup.TwoLoadsShow | script.js:106-141 | when two different probes of a new popup load, it shows its header and their two paths, in arrival order |
| DayPopup.TwoPhotosInArrivalOrder | script.js:130-141 | for a day with `day{d}.jpg` and `day{d}b.jpg`, the popup shows exactly those two images, in whichever order they arrive |

## Findings

| source | as written | input that shows it | evidently intended | confidence | as-written member | corrected member |
|---|---|---|---|---|---|---|
| script.js:34 | `new Date(year, month + 1, 0)` takes a year of 0..99 as 1900..1999 | the view headed "February 0" (reached with the previous-month button) shows 28 days, those of February 1900 | the day count of the viewed year: 29 for February of year 0 | medium, not executed | Calendar.YearZeroFebruaryAsWritten | Calendar.RenderCalendar |
| script.js:33 | `new Date(year, month, 1).getDay()` takes a year of 0..99 as 1900..1999 | going from December 99 (drawn from December 1999) to January 100 puts the 1st on a weekday that does not follow the previous grid | grids of consecutive months line up week by week | medium, not executed | Calendar.CenturyStepAsWritten | Calendar.LeadingBlanksOfNextView |

The rest of the model uses the corrected grid, which uses the viewed year itself.

## Left out

- DOM construction, `innerHTML`, class lists and styling (script.js:1-3, 17-22, 38-46, 85-99, 114-126). Cells and popup children are abstract records.
- The weekday labels (script.js:15-22). They are static text created once.
- Actual image loading via `new Image()` and `onload`. It becomes an input sequence of loaded probes. Failed loads have no handler in the script, so they are simply absent from the sequence.
- The clock (script.js:6-8, 30). Today's date is a parameter. Time zones and daylight saving time are not modelled, because the grid depends only on local calendar dates.
- Drag behaviour (script.js:146-174). It is pointer and offset geometry on layout values that only a layout engine can supply.
- The click handler (script.js:73). It only passes the cell's (year, month, day) to `openIframe`; in the model this is the popup's `Open` event with those values.
- Decimal.IntToString: does not model the exponent notation JavaScript uses for integers of magnitude 10^21 or more. The `Date` object is invalid long before a year of that size.
- Calendar.RenderCalendar: does not model views outside the `Date` range (about ±275,000 years). There the script's dates are NaN and its loops produce no cells.
- Calendar.MonthHeader: requires a month in 0..11. The navigation buttons keep the month in that range (`Navigation.PressesMoveAlongTimeline`), so `monthNames[month]` is never undefined.

=== FILE: assets.dfy ===
/**
 * The addressing scheme shared by the calendar grid and the popup:
 * `assets/{year}/{month+1}/day{d}{letter}.jpg` (script.js:69, 131, 138) and
 * the popup title `Events for {month+1}/{day}/{year}` (script.js:90).
 * Each text comes with a reader that recovers what was written into it.
 */
module Assets {
  import opened Wrappers
  import opened Decimal

  /** The letters of the lettered variants, in the order the script probes them. */
  const Letters: string := "abcdefghijklmnopqrstuvwxyz"

  predicate IsLetter(c: char) {
    'a' <= c <= 'z'
  }

  /** The base image of a day, or one of its lettered variants. */
  datatype Variant = Base | Lettered(letter: char)

  /** One candidate image: the view's year, the 0-based month, the day number and the variant. */
  datatype AssetRef = AssetRef(year: int, month: int, day: int, variant: Variant)

  predicate ValidRef(r: AssetRef) {
    r.variant.Lettered? ==> IsLetter(r.variant.letter)
  }

  function Suffix(v: Variant): string {
    match v
    case Base => ""
    case Lettered(c) => [c]
  }

  /** The image path of a candidate; the directory uses the 1-based month. */
  function AssetPath(r: AssetRef): string {
    "assets/" + (IntToString(r.year) + AfterYear(r))
  }

  /** Recovers the candidate from an image path; the month is read back 0-based. */
  function ParsePath(s: string): Option<AssetRef> {
    match ReadIntAfter("assets/", s)
    case None => None
    case Some((year, rest)) => ParseAfterYear(year, rest)
  }

  function ParseAfterYear(year: int, s: string): Option<AssetRef> {
    match ReadIntAfter("/", s)
    case None => None
    case Some((month1, rest)) => ParseAfterMonth(year, month1 - 1, rest)
  }

  function ParseAfterMonth(year: int, month: int, s: string): Option<AssetRef> {
    match ReadIntAfter("/day", s)
    case None => None
    case Some((day, rest)) =>
      match ParseTail(rest)
      case None => None
      case Some(variant) => Some(AssetRef(year, month, day, variant))
  }

  /** Reads the variant suffix and the `.jpg` extension that end an image path. */
  function ParseTail(s: string): Option<Variant> {
    if s == ".jpg" then Some(Base)
    else if |s| == 5 && IsLetter(s[0]) && s[1..] == ".jpg" then Some(Lettered(s[0]))
    else None
  }

  lemma ParseTailOfSuffix(v: Variant)
    requires v.Lettered? ==> IsLetter(v.letter)
    ensures ParseTail(Suffix(v) + ".jpg") == Some(v)
    ensures EndsDigitRun(Suffix(v) + ".jpg")
  {
  }

  /** The text of a candidate after its year: the month directory, the file name and the extension. */
  function AfterYear(r: AssetRef): string {
    "/" + (IntToString(r.month + 1) + AfterMonth(r))
  }

  function AfterMonth(r: AssetRef): string {
    "/day" + (IntToString(r.day) + (Suffix(r.variant) + ".jpg"))
  }

  lemma ParseAfterMonthOf(r: AssetRef)
    requires ValidRef(r)
    ensures EndsDigitRun(AfterMonth(r))
    ensures ParseAfterMonth(r.year, r.month, AfterMonth(r)) == Some(r)
  {
    ParseTailOfSuffix(r.variant);
    ReadIntAfterField("/day", r.day, Suffix(r.variant) + ".jpg");
  }

  lemma ParseAfterYearOf(r: AssetRef)
    requires ValidRef(r)
    ensures EndsDigitRun(AfterYear(r))
    ensures ParseAfterYear(r.year, AfterYear(r)) == Some(r)
  {
    ParseAfterMonthOf(r);
    ReadIntAfterField("/", r.month + 1, AfterMonth(r));
  }

  /** Every candidate path reads back as the candidate it was built from. */
  lemma ParsePathOfAssetPath(r: AssetRef)
    requires ValidRef(r)
    ensures ParsePath(AssetPath(r)) == Some(r)
  {
    ParseAfterYearOf(r);
    ReadIntAfterField("assets/", r.year, AfterYear(r));
  }

  /** Two valid candidates share a path only if they are the same candidate. */
  lemma AssetPathInjective(a: AssetRef, b: AssetRef)
    requires ValidRef(a) && ValidRef(b) && AssetPath(a) == AssetPath(b)
    ensures a == b
  {
    ParsePathOfAssetPath(a);
    ParsePathOfAssetPath(b);
  }

  lemma LettersAreTheAlphabet()
    ensures |Letters| == 26
    ensures forall i :: 0 <= i < 26 ==> Letters[i] as int == 'a' as int + i
  {
  }

  /** The base image path of a day (script.js:131). */
  function BasePath(year: int, month: int, day: int): string {
    AssetPath(AssetRef(year, month, day, Base))
  }

  /** The lettered path of a day for the i-th letter (script.js:69, 138). */
  function LetteredPath(year: int, month: int, day: int, i: int): string
    requires 0 <= i < |Letters|
  {
    AssetPath(AssetRef(year, month, day, Lettered(Letters[i])))
  }

  /** The 26 lettered paths a day cell probes, in letter order (script.js:58-70). */
  function LetteredProbes(year: int, month: int, day: int): (ps: seq<string>)
    ensures |ps| == |Letters|
  {
    seq(|Letters|, i requires 0 <= i < |Letters| => LetteredPath(year, month, day, i))
  }

  /** The 27 paths a popup probes: the base image first, then the lettered variants (script.js:130-142). */
  function PopupProbes(year: int, month: int, day: int): (ps: seq<string>)
    ensures |ps| == 1 + |Letters|
  {
    [BasePath(year, month, day)] + LetteredProbes(year, month, day)
  }

  /** The variant the i-th popup probe asks for. */
  function ProbeVariant(i: int): Variant
    requires 0 <= i <= |Letters|
  {
    if i == 0 then Base else Lettered(Letters[i - 1])
  }

  predicate Distinct<T(==)>(s: seq<T>) {
    forall i, j :: 0 <= i < j < |s| ==> s[i] != s[j]
  }

  /** The i-th popup probe is the day's asset with the i-th variant. */
  lemma PopupProbeAt(year: int, month: int, day: int, i: int)
    requires 0 <= i <= |Letters|
    ensures PopupProbes(year, month, day)[i] == AssetPath(AssetRef(year, month, day, ProbeVariant(i)))
  {
    if i > 0 {
      assert PopupProbes(year, month, day)[i] == LetteredProbes(year, month, day)[i - 1];
    }
  }

  /** Different probe positions ask for different variants. */
  lemma ProbeVariantInjective(i: int, j: int)
    requires 0 <= i < j <= |Letters|
    ensures ProbeVariant(i) != ProbeVariant(j)
  {
    LettersAreTheAlphabet();
  }

  /** The i-th popup probe reads back as the day's asset with the i-th variant. */
  lemma PopupProbeParses(year: int, month: int, day: int, i: int)
    requires 0 <= i <= |Letters|
    ensures ParsePath(PopupProbes(year, month, day)[i]) == Some(AssetRef(year, month, day, ProbeVariant(i)))
  {
    var r := AssetRef(year, month, day, ProbeVariant(i));
    calc {
      ParsePath(PopupProbes(year, month, day)[i]);
      { PopupProbeAt(year, month, day, i); }
      ParsePath(AssetPath(r));
      { ParsePathOfAssetPath(r); }
      Some(r);
    }
  }

  /**
   * The popup's 27 probes are pairwise distinct, and each reads back as the
   * clicked day's asset with the variant in probe order.
   */
  lemma PopupProbesDistinct(year: int, month: int, day: int)
    ensures Distinct(PopupProbes(year, month, day))
    ensures forall i :: 0 <= i < |PopupProbes(year, month, day)| ==>
      ParsePath(PopupProbes(year, month, day)[i]) == Some(AssetRef(year, month, day, ProbeVariant(i)))
  {
    var ps := PopupProbes(year, month, day);
    forall i | 0 <= i < |ps|
      ensures ParsePath(ps[i]) == Some(AssetRef(year, month, day, ProbeVariant(i)))
    {
      PopupProbeParses(year, month, day, i);
    }
    forall i, j | 0 <= i < j < |ps|
      ensures ps[i] != ps[j]
    {
      ProbeVariantInjective(i, j);
    }
  }

  /** Every path a day cell probes reads back as a lettered variant of that day, never as a base image. */
  lemma LetteredProbesAreLettered(year: int, month: int, day: int, p: string)
    requires p in LetteredProbes(year, month, day)
    ensures ParsePath(p).Some? && ParsePath(p).value.variant.Lettered?
    ensures ParsePath(p).value.year == year && ParsePath(p).value.month == month && ParsePath(p).value.day == day
  {
    var i :| 0 <= i < |Letters| && LetteredProbes(year, month, day)[i] == p;
    LettersAreTheAlphabet();
    ParsePathOfAssetPath(AssetRef(year, month, day, Lettered(Letters[i])));
  }

  /** The popup title (script.js:90): the 1-based month, then the day, then the year. */
  function Title(year: int, month: int, day: int): string {
    "Events for " + (IntToString(month + 1) + ("/" + (IntToString(day) + ("/" + IntToString(year)))))
  }

  /** Recovers (year, 0-based month, day) from a popup title. */
  function ParseTitle(s: string): Option<(int, int, int)> {
    match ReadIntAfter("Events for ", s)
    case None => None
    case Some((month1, r1)) => ParseTitleAfterMonth(month1 - 1, r1)
  }

  /** The part of a title after its month: "/day/year". */
  function ParseTitleAfterMonth(month: int, s: string): Option<(int, int, int)> {
    match ReadIntAfter("/", s)
    case None => None
    case Some((day, r2)) => ParseTitleAfterDay(month, day, r2)
  }

  /** The part of a title after its day: "/year", ending the text. */
  function ParseTitleAfterDay(month: int, day: int, s: string): Option<(int, int, int)> {
    match ReadIntAfter("/", s)
    case None => None
    case Some((year, r3)) => if r3 == [] then Some((year, month, day)) else None
  }

  lemma ParseTitleAfterDayOf(year: int, month: int, day: int)
    ensures ParseTitleAfterDay(month, day, "/" + IntToString(year)) == Some((year, month, day))
  {
    assert "/" + IntToString(year) == "/" + (IntToString(year) + []);
    ReadIntAfterField("/", year, []);
  }

  lemma ParseTitleAfterMonthOf(year: int, month: int, day: int)
    ensures ParseTitleAfterMonth(month, "/" + (IntToString(day) + ("/" + IntToString(year)))) == Some((year, month, day))
  {
    ReadIntAfterField("/", day, "/" + IntToString(year));
    ParseTitleAfterDayOf(year, month, day);
  }

  /** A title reads back as the day it was made for, so different days get different titles. */
  lemma ParseTitleOfTitle(year: int, month: int, day: int)
    ensures ParseTitle(Title(year, month, day)) == Some((year, month, day))
  {
    var rest1 := "/" + (IntToString(day) + ("/" + IntToString(year)));
    ReadIntAfterField("Events for ", month + 1, rest1);
    ParseTitleAfterMonthOf(year, month, day);
  }
}

=== FILE: calendar.dfy ===
/**
 * One render of the month grid (script.js:25-77): the header text, the
 * leading blanks, the day cells with their past/today/future class, and the
 * `has-image` marking that lettered-image probes apply to day cells after
 * the render. "Today" is a parameter instead of the clock.
 */
module Calendar {
  import opened Wrappers
  import opened Decimal
  import opened Gregorian
  import opened Navigation
  import opened Assets

  const MonthNames: seq<string> := [
    "January", "February", "March", "April", "May", "June",
    "July", "August", "September", "October", "November", "December"
  ]

  /** The header text `{MonthName} {year}` (script.js:28). */
  function MonthHeader(v: ViewMonth): string
    requires Valid(v)
  {
    MonthNames[v.month] + " " + IntToString(v.year)
  }

  /** Recovers the view from a header text by its month name. */
  function ParseHeader(s: string): Option<ViewMonth> {
    FindMonth(s, 0)
  }

  function FindMonth(s: string, k: nat): Option<ViewMonth>
    decreases 12 - k
  {
    if k >= 12 then None
    else if MonthNames[k] + " " <= s then
      match ReadInt(s[|MonthNames[k]| + 1..])
      case Some((year, rest)) => if rest == [] then Some(ViewMonth(year, k)) else None
      case None => None
    else FindMonth(s, k + 1)
  }

  predicate NoSpace(s: string) {
    forall i :: 0 <= i < |s| ==> s[i] != ' '
  }

  lemma MonthNamesDistinct()
    ensures |MonthNames| == 12
    ensures forall k :: 0 <= k < 12 ==> NoSpace(MonthNames[k])
    ensures forall j, k :: 0 <= j < k < 12 ==> MonthNames[j] != MonthNames[k]
  {
  }

  lemma PrefixAgrees(x: string, y: string, i: int)
    requires x <= y && 0 <= i < |x|
    ensures x[i] == y[i]
  {
  }

  /** A space-free name followed by a space is a prefix of another such only if the names agree. */
  lemma NameBeforeSpace(a: string, b: string, t: string)
    requires NoSpace(a) && NoSpace(b)
    requires a + " " <= b + " " + t
    ensures a == b
  {
    var u := b + " " + t;
    if |a| < |b| {
      PrefixAgrees(a + " ", u, |a|);
      assert false;
    } else if |a| > |b| {
      PrefixAgrees(a + " ", u, |b|);
      assert false;
    }
    assert a == (a + " ")[..|a|];
    assert (b + " " + t)[..|b|] == b;
  }

  /** A header reads back as the view it was made for. */
  lemma ParseHeaderOfMonthHeader(v: ViewMonth)
    requires Valid(v)
    ensures ParseHeader(MonthHeader(v)) == Some(v)
  {
    MonthNamesDistinct();
    var name := MonthNames[v.month];
    var s := MonthHeader(v);
    forall k | 0 <= k < v.month
      ensures !(MonthNames[k] + " " <= s)
    {
      if MonthNames[k] + " " <= s {
        NameBeforeSpace(MonthNames[k], name, IntToString(v.year));
      }
    }
    FindMonthSkips(s, 0, v.month);
    assert s[|name| + 1..] == IntToString(v.year) + [];
    ReadIntOfIntToString(v.year, []);
  }

  lemma {:induction false} FindMonthSkips(s: string, k: nat, m: nat)
    requires k <= m < 12
    requires forall j :: k <= j < m ==> !(MonthNames[j] + " " <= s)
    ensures FindMonth(s, k) == FindMonth(s, m)
    decreases m - k
  {
    if k < m {
      FindMonthSkips(s, k + 1, m);
    }
  }

  /** The real date, as the clock would give it: year, 0-based month and day of the month. */
  datatype Clock = Clock(year: int, month: int, date: int)

  /** The view the page opens on (script.js:6-8). */
  function InitialView(today: Clock): (v: ViewMonth)
    ensures IsCurrentMonth(v, today)
    ensures 0 <= today.month < 12 ==> Valid(v)
  {
    ViewMonth(today.year, today.month)
  }

  datatype Tense = Past | Today | Future

  predicate IsCurrentMonth(v: ViewMonth, today: Clock) {
    v.year == today.year && v.month == today.month
  }

  /** The colouring class of day `d` in view `v` (script.js:31, 49-55). */
  function Classify(v: ViewMonth, today: Clock, d: int): (t: Tense)
    ensures t == Past <==> IsCurrentMonth(v, today) && d < today.date
    ensures t == Today <==> IsCurrentMonth(v, today) && d == today.date
    ensures t == Future <==> !IsCurrentMonth(v, today) || d > today.date
  {
    if IsCurrentMonth(v, today) then
      if d < today.date then Past
      else if d == today.date then Today
      else Future
    else Future
  }

  /**
   * A grid cell: a leading blank, or a day with its colouring class, the
   * closure's `marked` flag and the number of times the `has-image` class
   * was added to it.
   */
  datatype Cell = Blank | Day(date: int, tense: Tense, marked: bool, imageAdds: nat)

  /** Number of blanks before the 1st: the weekday of the 1st, 0 = Sunday (script.js:33). */
  function LeadingBlanks(v: ViewMonth): (n: int)
    requires Valid(v)
    ensures 0 <= n < 7
  {
    FirstWeekday(v.year, v.month)
  }

  /** Number of day cells: the date of day 0 of the next month (script.js:34). */
  function MonthLength(v: ViewMonth): (n: int)
    requires Valid(v)
    ensures 28 <= n <= 31
    ensures v.month == 1 ==> (n == 29 <==> IsLeapYear(v.year))
  {
    DaysInMonth(v.year, v.month)
  }

  /**
   * On the page as first opened, today's date is the one day classed Today:
   * days before it are Past and days after it Future.
   */
  lemma OpeningViewShowsToday(today: Clock, d: int)
    ensures Classify(InitialView(today), today, d) == Today <==> d == today.date
    ensures Classify(InitialView(today), today, d) == Past <==> d < today.date
  {
  }

  /** Number of cells classified Today. */
  function TodayCount(cells: seq<Cell>): nat
    decreases |cells|
  {
    if cells == [] then 0
    else
      var last := cells[|cells| - 1];
      TodayCount(cells[..|cells| - 1]) + (if last.Day? && last.tense == Today then 1 else 0)
  }

  datatype MonthPage = MonthPage(header: string, cells: seq<Cell>)

  /**
   * `renderCalendar`: the header, then the blanks, then the days 1..n in
   * order, each classified and not yet marked. Exactly one cell is Today
   * when the real date lies in the viewed month, none otherwise.
   */
  method RenderCalendar(v: ViewMonth, today: Clock) returns (page: MonthPage)
    requires Valid(v)
    ensures page.header == MonthHeader(v)
    ensures |page.cells| == LeadingBlanks(v) + MonthLength(v)
    ensures forall i :: 0 <= i < LeadingBlanks(v) ==> page.cells[i] == Blank
    ensures forall d :: 1 <= d <= MonthLength(v) ==>
      page.cells[LeadingBlanks(v) + d - 1] == Day(d, Classify(v, today, d), false, 0)
    ensures TodayCount(page.cells) ==
      (if IsCurrentMonth(v, today) && 1 <= today.date <= MonthLength(v) then 1 else 0)
  {
    var lead := LeadingBlanks(v);
    var n := MonthLength(v);
    var cells: seq<Cell> := [];
    var i := 0;
    while i < lead
      invariant 0 <= i <= lead
      invariant |cells| == i
      invariant forall j :: 0 <= j < i ==> cells[j] == Blank
      invariant TodayCount(cells) == 0
    {
      cells := cells + [Blank];
      i := i + 1;
    }
    var d := 1;
    while d <= n
      invariant 1 <= d <= n + 1
      invariant |cells| == lead + d - 1
      invariant forall j :: 0 <= j < lead ==> cells[j] == Blank
      invariant forall e :: 1 <= e < d ==> cells[lead + e - 1] == Day(e, Classify(v, today, e), false, 0)
      invariant TodayCount(cells) ==
        (if IsCurrentMonth(v, today) && 1 <= today.date < d then 1 else 0)
    {
      cells := cells + [Day(d, Classify(v, today, d), false, 0)];
      assert cells[..|cells| - 1] == cells[..lead + d - 1];
      d := d + 1;
    }
    page := MonthPage(MonthHeader(v), cells);
  }

  /** Consecutive months line up: the next view's blanks continue where this month's days end. */
  lemma LeadingBlanksOfNextView(v: ViewMonth)
    requires Valid(v)
    ensures LeadingBlanks(Next(v)) == (LeadingBlanks(v) + MonthLength(v)) % 7
  {
    FirstWeekdayOfNextMonth(v.year, v.month);
    if v.month == 11 {
      MakeDayUnfold(v.year, 12, 1);
      MakeDayUnfold(v.year + 1, 0, 1);
    }
  }

  /**
   * The script as written: `new Date(year, month, 1)` and
   * `new Date(year, month + 1, 0)` read a year in 0..99 as 1900..1999, so the
   * blanks and the day count of such a view come from the twentieth century.
   */
  function LeadingBlanksAsWritten(v: ViewMonth): (n: int)
    requires Valid(v)
    ensures 0 <= v.year <= 99 ==> n == FirstWeekday(1900 + v.year, v.month)
    ensures !(0 <= v.year <= 99) ==> n == LeadingBlanks(v)
  {
    FirstWeekday(ConstructorYear(v.year), v.month)
  }

  function MonthLengthAsWritten(v: ViewMonth): (n: int)
    requires Valid(v)
    ensures 0 <= v.year <= 99 ==> n == DaysInMonth(1900 + v.year, v.month)
    ensures !(0 <= v.year <= 99) ==> n == MonthLength(v)
  {
    DaysInMonth(ConstructorYear(v.year), v.month)
  }

  /** February of year 0 is headed "February 0" but shows the 28 days of February 1900, although year 0 is a leap year. */
  lemma YearZeroFebruaryAsWritten()
    ensures MonthHeader(ViewMonth(0, 1)) == "February 0"
    ensures MonthLengthAsWritten(ViewMonth(0, 1)) == 28 && MonthLength(ViewMonth(0, 1)) == 29
  {
    assert IntToString(0) == "0";
  }

  /**
   * Stepping from December 99 (drawn as December 1999) to January 100 (drawn
   * as January 100) breaks the weekday continuity of consecutive grids.
   */
  lemma CenturyStepAsWritten()
    ensures LeadingBlanksAsWritten(ViewMonth(100, 0)) !=
      (LeadingBlanksAsWritten(ViewMonth(99, 11)) + MonthLengthAsWritten(ViewMonth(99, 11))) % 7
  {
    LeadingBlanksOfNextView(ViewMonth(1999, 11));
    assert (2000 - 1969) / 4 == 7 && (2000 - 1901) / 100 == 0 && (2000 - 1601) / 400 == 0;
    assert DayFromYear(2000) == 10957;
    MakeDayUnfold(2000, 0, 1);
    assert LeadingBlanks(ViewMonth(2000, 0)) == 6;
    assert (100 - 1969) / 4 == -468 && (100 - 1901) / 100 == -19 && (100 - 1601) / 400 == -4;
    assert DayFromYear(100) == -683003;
    MakeDayUnfold(100, 0, 1);
    assert LeadingBlanks(ViewMonth(100, 0)) == 5;
  }

  /** The `onload` closure of a day cell's lettered probe (script.js:63-67). */
  function MarkLoaded(c: Cell): (r: Cell)
    ensures r.Blank? == c.Blank?
    ensures c.Day? ==> r.date == c.date && r.tense == c.tense && r.marked
    ensures c.Day? && !c.marked ==> r.imageAdds == c.imageAdds + 1
    ensures c.Day? && c.marked ==> r == c
  {
    if c.Day? && !c.marked then c.(marked := true, imageAdds := c.imageAdds + 1) else c
  }

  /** One loaded probe path, delivered to the cells of view `v` whose closures probed it. */
  function DeliverLoad(v: ViewMonth, cells: seq<Cell>, path: string): (r: seq<Cell>)
    ensures |r| == |cells|
    ensures forall i :: 0 <= i < |cells| && !(cells[i].Day? && path in LetteredProbes(v.year, v.month, cells[i].date)) ==>
      r[i] == cells[i]
    ensures forall i :: 0 <= i < |cells| && cells[i].Day? && path in LetteredProbes(v.year, v.month, cells[i].date) ==>
      r[i].Day? && r[i].date == cells[i].date && r[i].tense == cells[i].tense && r[i].marked
  {
    seq(|cells|, i requires 0 <= i < |cells| =>
      if cells[i].Day? && path in LetteredProbes(v.year, v.month, cells[i].date)
      then MarkLoaded(cells[i]) else cells[i])
  }

  /** Loaded probe paths in arrival order, delivered one after another. */
  function DeliverLoads(v: ViewMonth, cells: seq<Cell>, loads: seq<string>): (r: seq<Cell>)
    ensures |r| == |cells|
    decreases |loads|
  {
    if loads == [] then cells else DeliverLoads(v, DeliverLoad(v, cells, loads[0]), loads[1..])
  }

  /** Some lettered variant of day `d` of view `v` is among the loaded paths. */
  predicate AnyLetteredLoaded(v: ViewMonth, d: int, loads: seq<string>) {
    exists k :: 0 <= k < |loads| && loads[k] in LetteredProbes(v.year, v.month, d)
  }

  /** A day cell whose marked flag agrees with its count of `has-image` additions. */
  predicate MarkConsistent(c: Cell) {
    c.Day? ==> c.imageAdds <= 1 && (c.marked <==> c.imageAdds == 1)
  }

  lemma {:induction false} DeliverLoadsMarks(v: ViewMonth, cells: seq<Cell>, loads: seq<string>)
    requires forall i :: 0 <= i < |cells| ==> MarkConsistent(cells[i])
    ensures var r := DeliverLoads(v, cells, loads);
      && |r| == |cells|
      && forall i :: 0 <= i < |cells| ==>
        && MarkConsistent(r[i])
        && r[i].Blank? == cells[i].Blank?
        && (cells[i].Day? ==>
          && r[i].date == cells[i].date && r[i].tense == cells[i].tense
          && (r[i].marked <==> cells[i].marked || AnyLetteredLoaded(v, cells[i].date, loads)))
    decreases |loads|
  {
    if loads != [] {
      var next := DeliverLoad(v, cells, loads[0]);
      DeliverLoadsMarks(v, next, loads[1..]);
      var r := DeliverLoads(v, cells, loads);
      forall i | 0 <= i < |cells| && cells[i].Day?
        ensures r[i].marked <==> cells[i].marked || AnyLetteredLoaded(v, cells[i].date, loads)
      {
        var d := cells[i].date;
        if AnyLetteredLoaded(v, d, loads[1..]) {
          var k :| 0 <= k < |loads[1..]| && loads[1..][k] in LetteredProbes(v.year, v.month, d);
          assert loads[k + 1] == loads[1..][k];
        }
        if AnyLetteredLoaded(v, d, loads) {
          var k :| 0 <= k < |loads| && loads[k] in LetteredProbes(v.year, v.month, d);
          if k > 0 {
            assert loads[1..][k - 1] == loads[k];
          }
        }
      }
    }
  }

  /**
   * Over any sequence of probe loads after a render, a day cell gets the
   * `has-image` class at most once, and gets it exactly when one of its
   * lettered variants loaded; blanks and the colouring are left alone.
   */
  lemma HasImageAddedAtMostOnce(v: ViewMonth, cells: seq<Cell>, loads: seq<string>)
    requires forall i :: 0 <= i < |cells| ==> cells[i].Day? ==> !cells[i].marked && cells[i].imageAdds == 0
    ensures var r := DeliverLoads(v, cells, loads);
      && |r| == |cells|
      && forall i :: 0 <= i < |cells| && cells[i].Day? ==>
        && r[i].Day? && r[i].date == cells[i].date && r[i].tense == cells[i].tense
        && r[i].imageAdds <= 1
        && (r[i].imageAdds == 1 <==> AnyLetteredLoaded(v, cells[i].date, loads))
  {
    DeliverLoadsMarks(v, cells, loads);
  }

  predicate AllBaseImages(loads: seq<string>) {
    forall k :: 0 <= k < |loads| ==> ParsePath(loads[k]).Some? && ParsePath(loads[k]).value.variant == Base
  }

  lemma NoLetteredAmongBaseImages(v: ViewMonth, d: int, loads: seq<string>)
    requires AllBaseImages(loads)
    ensures !AnyLetteredLoaded(v, d, loads)
  {
    forall k | 0 <= k < |loads| && loads[k] in LetteredProbes(v.year, v.month, d)
      ensures false
    {
      LetteredProbesAreLettered(v.year, v.month, d, loads[k]);
    }
  }

  /** Loads of base images, of any day, never mark a day cell: the cells probe only lettered variants. */
  lemma BaseLoadsNeverMark(v: ViewMonth, cells: seq<Cell>, loads: seq<string>)
    requires forall i :: 0 <= i < |cells| ==> cells[i].Day? ==> !cells[i].marked && cells[i].imageAdds == 0
    requires AllBaseImages(loads)
    ensures forall i :: 0 <= i < |cells| ==> DeliverLoads(v, cells, loads)[i] == cells[i]
  {
    DeliverLoadsMarks(v, cells, loads);
    var r := DeliverLoads(v, cells, loads);
    forall i | 0 <= i < |cells|
      ensures r[i] == cells[i]
    {
      if cells[i].Day? {
        NoLetteredAmongBaseImages(v, cells[i].date, loads);
      }
    }
  }
}

=== FILE: decimal.dfy ===
/**
 * Decimal text of integers, as a JavaScript template literal `${n}` renders an
 * integral Number, and a reader that recovers the integer from that text.
 */
module Decimal {
  import opened Wrappers

  predicate IsDigit(c: char) {
    '0' <= c <= '9'
  }

  predicate AllDigits(s: string) {
    forall i :: 0 <= i < |s| ==> IsDigit(s[i])
  }

  /** True when `s` cannot continue a run of digits that precedes it. */
  predicate EndsDigitRun(s: string) {
    s == [] || !IsDigit(s[0])
  }

  function DigitValue(c: char): (n: int)
    requires IsDigit(c)
    ensures 0 <= n < 10
  {
    c as int - '0' as int
  }

  function DigitChar(n: int): (c: char)
    requires 0 <= n < 10
    ensures IsDigit(c) && DigitValue(c) == n
  {
    (n + '0' as int) as char
  }

  /** Decimal digits of `n`, most significant first, without leading zeros. */
  function NatToString(n: nat): (s: string)
    ensures |s| > 0 && AllDigits(s)
    ensures s[0] == '0' <==> n == 0
    decreases n
  {
    if n < 10 then [DigitChar(n)] else NatToString(n / 10) + [DigitChar(n % 10)]
  }

  /** `${i}` for an integral Number `i`: a minus sign before the digits of a negative value. */
  function IntToString(i: int): (s: string)
    ensures |s| > 0
    ensures s[0] == '-' <==> i < 0
    ensures i >= 0 ==> AllDigits(s)
  {
    if i < 0 then "-" + NatToString(-i) else NatToString(i)
  }

  /** The value of a string of decimal digits. */
  function DigitsValue(s: string): nat
    requires AllDigits(s)
    decreases |s|
  {
    if s == [] then 0 else 10 * DigitsValue(s[..|s| - 1]) + DigitValue(s[|s| - 1])
  }

  lemma {:induction false} DigitsValueOfNatToString(n: nat)
    ensures DigitsValue(NatToString(n)) == n
    decreases n
  {
    if n >= 10 {
      DigitsValueOfNatToString(n / 10);
      var s := NatToString(n / 10) + [DigitChar(n % 10)];
      assert s[..|s| - 1] == NatToString(n / 10);
    }
  }

  /** Length of the run of digits that starts `s`. */
  function DigitRun(s: string): (k: nat)
    ensures k <= |s|
    ensures AllDigits(s[..k])
    ensures EndsDigitRun(s[k..])
    decreases |s|
  {
    if s != [] && IsDigit(s[0]) then 1 + DigitRun(s[1..]) else 0
  }

  lemma {:induction false} DigitRunOfDigits(d: string, rest: string)
    requires AllDigits(d) && EndsDigitRun(rest)
    ensures DigitRun(d + rest) == |d|
    decreases |d|
  {
    if d != [] {
      assert (d + rest)[1..] == d[1..] + rest;
      DigitRunOfDigits(d[1..], rest);
    }
  }

  /** Reads the run of digits at the start of `s`, if any: its value and the text after it. */
  function ReadNat(s: string): Option<(nat, string)> {
    var k := DigitRun(s);
    if k == 0 then None else Some((DigitsValue(s[..k]), s[k..]))
  }

  /**
   * Reads an integer written as an optional minus sign and at least one digit
   * at the start of `s`; yields the value and the text after the digits.
   */
  function ReadInt(s: string): Option<(int, string)> {
    if |s| > 0 && s[0] == '-' then
      match ReadNat(s[1..])
      case None => None
      case Some((n, rest)) => Some((0 - n, rest))
    else
      match ReadNat(s)
      case None => None
      case Some((n, rest)) => Some((n as int, rest))
  }

  lemma ReadNatOfNatToString(n: nat, rest: string)
    requires EndsDigitRun(rest)
    ensures ReadNat(NatToString(n) + rest) == Some((n, rest))
  {
    var digits := NatToString(n);
    DigitRunOfDigits(digits, rest);
    DigitsValueOfNatToString(n);
    assert (digits + rest)[..|digits|] == digits;
    assert (digits + rest)[|digits|..] == rest;
  }

  lemma ReadIntOfNonNegative(i: int, rest: string)
    requires i >= 0 && EndsDigitRun(rest)
    ensures ReadInt(IntToString(i) + rest) == Some((i, rest))
  {
    var s := NatToString(i) + rest;
    assert s[0] == NatToString(i)[0];
    ReadNatOfNatToString(i, rest);
  }

  lemma NegativeText(i: int, rest: string)
    requires i < 0
    ensures (IntToString(i) + rest)[0] == '-'
    ensures (IntToString(i) + rest)[1..] == NatToString(-i) + rest
  {
    assert IntToString(i) + rest == "-" + (NatToString(-i) + rest);
  }

  lemma ReadIntOfNegative(i: int, rest: string)
    requires i < 0 && EndsDigitRun(rest)
    ensures ReadInt(IntToString(i) + rest) == Some((i, rest))
  {
    NegativeText(i, rest);
    ReadNatOfNatToString(-i, rest);
  }

  /** Reading back the text of any integer, followed by a non-digit, recovers it. */
  lemma ReadIntOfIntToString(i: int, rest: string)
    requires EndsDigitRun(rest)
    ensures ReadInt(IntToString(i) + rest) == Some((i, rest))
  {
    if i < 0 {
      ReadIntOfNegative(i, rest);
    } else {
      ReadIntOfNonNegative(i, rest);
    }
  }

  /** Reads an integer that follows the literal text `lit`. */
  function ReadIntAfter(lit: string, s: string): Option<(int, string)> {
    if lit <= s then ReadInt(s[|lit|..]) else None
  }

  lemma ReadIntAfterField(lit: string, i: int, rest: string)
    requires EndsDigitRun(rest)
    ensures ReadIntAfter(lit, lit + (IntToString(i) + rest)) == Some((i, rest))
  {
    assert (lit + (IntToString(i) + rest))[|lit|..] == IntToString(i) + rest;
    ReadIntOfIntToString(i, rest);
  }
}

=== FILE: gregorian.dfy ===
/**
 * The date arithmetic behind `new Date(year, month, date)`, `getDay()` and
 * `getDate()`, following the proleptic Gregorian calendar of ECMA-262
 * (section 21.4.1). Days are counted from
 * 1 January 1970; months are 0-based.
 */
module Gregorian {

  predicate IsLeapYear(y: int) {
    y % 4 == 0 && (y % 100 != 0 || y % 400 == 0)
  }

  function DaysInYear(y: int): int {
    if IsLeapYear(y) then 366 else 365
  }

  /** Day number of 1 January of year `y` (ECMA-262 DayFromYear). */
  function DayFromYear(y: int): int {
    365 * (y - 1970) + (y - 1969) / 4 - (y - 1901) / 100 + (y - 1601) / 400
  }

  /** Number of days of month `m` (0 = January) of year `y`. */
  function DaysInMonth(y: int, m: int): (n: int)
    requires 0 <= m < 12
    ensures 28 <= n <= 31
    ensures m == 1 ==> (n == 29 <==> IsLeapYear(y))
    ensures m != 1 ==> (n == 31 <==> m in {0, 2, 4, 6, 7, 9, 11})
    ensures m in {3, 5, 8, 10} ==> n == 30
    ensures m == 1 && !IsLeapYear(y) ==> n == 28
  {
    if m == 1 then (if IsLeapYear(y) then 29 else 28)
    else if m in {3, 5, 8, 10} then 30
    else 31
  }

  /**
   * Days of year `y` before the first of month `m`, from the cumulative table
   * of a common year plus the leap day after February; `m == 12` gives the
   * whole year.
   */
  function DaysBeforeMonth(y: int, m: int): int
    requires 0 <= m <= 12
  {
    [0, 31, 59, 90, 120, 151, 181, 212, 243, 273, 304, 334, 365][m]
      + (if m >= 2 && IsLeapYear(y) then 1 else 0)
  }

  /**
   * ECMA-262 MakeDay: the day number of `date` in `month` of `year`, where a
   * month outside 0..11 moves into an adjacent year and a date outside the
   * month moves into an adjacent month.
   */
  function MakeDay(year: int, month: int, date: int): int {
    var ym := year + month / 12;
    var mn := month % 12;
    DayFromYear(ym) + DaysBeforeMonth(ym, mn) + date - 1
  }

  /** ECMA-262 WeekDay: 0 = Sunday .. 6 = Saturday; 1 January 1970 was a Thursday. */
  function WeekDay(day: int): (w: int)
    ensures 0 <= w < 7
  {
    (day + 4) % 7
  }

  /** Weekday of the first of a month, as `new Date(year, month, 1).getDay()` computes it for a year the constructor keeps. */
  function FirstWeekday(year: int, month: int): (w: int)
    ensures 0 <= w < 7
  {
    WeekDay(MakeDay(year, month, 1))
  }

  /**
   * The `Date` constructor's two-digit-year rule (ECMA-262 section 21.4.2.1):
   * a year argument in 0..99 stands for 1900..1999.
   */
  function ConstructorYear(y: int): (r: int)
    ensures !(0 <= r <= 99)
    ensures r == y || r == y + 1900
    ensures !(0 <= y <= 99) ==> r == y
  {
    if 0 <= y <= 99 then 1900 + y else y
  }

  /** Consecutive New Year's days lie a year's length apart. */
  lemma DayFromYearStep(y: int)
    ensures DayFromYear(y + 1) == DayFromYear(y) + DaysInYear(y)
  {
    MultiplesOf4(y);
    MultiplesOf100(y);
    MultiplesOf400(y);
    Divisibility(y);
  }

  lemma MultiplesOf4(y: int)
    ensures (y - 1968) / 4 - (y - 1969) / 4 == (if y % 4 == 0 then 1 else 0)
  {
  }

  lemma MultiplesOf100(y: int)
    ensures (y - 1900) / 100 - (y - 1901) / 100 == (if y % 100 == 0 then 1 else 0)
  {
  }

  lemma MultiplesOf400(y: int)
    ensures (y - 1600) / 400 - (y - 1601) / 400 == (if y % 400 == 0 then 1 else 0)
  {
  }

  lemma Divisibility(y: int)
    ensures y % 400 == 0 ==> y % 100 == 0
    ensures y % 100 == 0 ==> y % 4 == 0
  {
    if y % 400 == 0 {
      CenturyOf400(y);
    }
    if y % 100 == 0 {
      QuadOf100(y);
    }
  }

  lemma CenturyOf400(y: int)
    requires y % 400 == 0
    ensures y % 100 == 0
  {
    var q := y / 400;
    assert y == 400 * q;
  }

  lemma QuadOf100(y: int)
    requires y % 100 == 0
    ensures y % 4 == 0
  {
    var q := y / 100;
    assert y == 100 * q;
  }

  /** The cumulative table agrees with the month lengths, and the twelve months fill the year. */
  lemma DaysBeforeMonthStep(y: int, m: int)
    requires 0 <= m < 12
    ensures DaysBeforeMonth(y, m + 1) == DaysBeforeMonth(y, m) + DaysInMonth(y, m)
    ensures DaysBeforeMonth(y, 0) == 0 && DaysBeforeMonth(y, 12) == DaysInYear(y)
  {
  }

  /** MakeDay without month overflow, and with the month just past December. */
  lemma MakeDayUnfold(y: int, m: int, date: int)
    requires 0 <= m <= 12
    ensures m < 12 ==> MakeDay(y, m, date) == DayFromYear(y) + DaysBeforeMonth(y, m) + date - 1
    ensures m == 12 ==> MakeDay(y, m, date) == DayFromYear(y + 1) + date - 1
  {
    if m < 12 {
      assert m / 12 == 0 && m % 12 == m;
    } else {
      assert m / 12 == 1 && m % 12 == 0;
    }
  }

  /**
   * `new Date(y, m + 1, 0)` is the last day of month `m`: the date 0 of the
   * next month is the day numbered DaysInMonth(y, m) in month `m`, also
   * when the next month rolls into the next year.
   */
  lemma DayZeroOfNextMonth(y: int, m: int)
    requires 0 <= m < 12
    ensures MakeDay(y, m + 1, 0) == MakeDay(y, m, DaysInMonth(y, m))
  {
    MakeDayUnfold(y, m, DaysInMonth(y, m));
    MakeDayUnfold(y, m + 1, 0);
    DaysBeforeMonthStep(y, m);
    if m == 11 {
      DayFromYearStep(y);
    }
  }

  lemma WeekDayShift(a: int, n: int)
    ensures WeekDay(a + n) == (WeekDay(a) + n) % 7
  {
    var q := (a + 4) / 7;
    assert a + 4 == 7 * q + WeekDay(a);
    assert a + n + 4 == 7 * q + (WeekDay(a) + n);
  }

  /** The first of the month after `m` falls DaysInMonth(y, m) days later in the week. */
  lemma FirstWeekdayOfNextMonth(y: int, m: int)
    requires 0 <= m < 12
    ensures FirstWeekday(y, m + 1) == (FirstWeekday(y, m) + DaysInMonth(y, m)) % 7
  {
    var n := DaysInMonth(y, m);
    var first := MakeDay(y, m, 1);
    assert MakeDay(y, m + 1, 1) == first + n by {
      MakeDayDates(y, m + 1, 0, 1);
      DayZeroOfNextMonth(y, m);
      MakeDayDates(y, m, 1, n);
    }
    WeekDayShift(first, n);
  }

  /** Within one month argument, MakeDay counts dates one day apart. */
  lemma MakeDayDates(y: int, m: int, a: int, b: int)
    ensures MakeDay(y, m, b) == MakeDay(y, m, a) + (b - a)
  {
  }

  /** Anchors the day count at the epoch, a Thursday. */
  lemma EpochIsThursday()
    ensures MakeDay(1970, 0, 1) == 0 && FirstWeekday(1970, 0) == 4
  {
    assert (1970 - 1969) / 4 == 0 && (1970 - 1901) / 100 == 0 && (1970 - 1601) / 400 == 0;
    assert DayFromYear(1970) == 0;
    MakeDayUnfold(1970, 0, 1);
    assert MakeDay(1970, 0, 1) == 0;
    assert WeekDay(0) == 4;
  }

  /** 1 January 2024 was a Monday and 1 February 2024 a Thursday. */
  lemma KnownWeekdays2024()
    ensures FirstWeekday(2024, 0) == 1 && FirstWeekday(2024, 1) == 4
  {
    MakeDayUnfold(2024, 0, 1);
    MakeDayUnfold(2024, 1, 1);
    assert DayFromYear(2024) == 19723;
    assert WeekDay(19723) == 1;
    assert WeekDay(19754) == 4;
  }

  /** February has 29 days in 2024 and 28 in 2023. */
  lemma KnownFebruaries()
    ensures DaysInMonth(2024, 1) == 29 && DaysInMonth(2023, 1) == 28
  {
  }
}

=== FILE: navigation.dfy ===
/**
 * The viewed month and the previous/next buttons (script.js:177-193). Each
 * button steps the 0-based month index by one and carries it into the
 * adjacent year when it leaves 0..11.
 */
module Navigation {

  datatype ViewMonth = ViewMonth(year: int, month: int)

  /** The month index of a view that the script can produce. */
  predicate Valid(v: ViewMonth) {
    0 <= v.month <= 11
  }

  /** Months elapsed since January of year 0: a view's position on the timeline. */
  function Ordinal(v: ViewMonth): int {
    12 * v.year + v.month
  }

  /** The `prev-month` handler: `viewMonth--`, wrapping below 0 into December of the year before. */
  function Prev(v: ViewMonth): (r: ViewMonth)
    ensures v.month <= 0 ==> r == ViewMonth(v.year - 1, 11)
    ensures v.month > 0 ==> r == ViewMonth(v.year, v.month - 1)
    ensures Valid(v) ==> Valid(r) && Ordinal(r) == Ordinal(v) - 1
  {
    var month := v.month - 1;
    if month < 0 then ViewMonth(v.year - 1, 11) else ViewMonth(v.year, month)
  }

  /** The `next-month` handler: `viewMonth++`, wrapping above 11 into January of the year after. */
  function Next(v: ViewMonth): (r: ViewMonth)
    ensures v.month >= 11 ==> r == ViewMonth(v.year + 1, 0)
    ensures v.month < 11 ==> r == ViewMonth(v.year, v.month + 1)
    ensures Valid(v) ==> Valid(r) && Ordinal(r) == Ordinal(v) + 1
  {
    var month := v.month + 1;
    if month > 11 then ViewMonth(v.year + 1, 0) else ViewMonth(v.year, month)
  }

  /** A valid view is determined by its position on the timeline. */
  lemma OrdinalInjective(a: ViewMonth, b: ViewMonth)
    requires Valid(a) && Valid(b) && Ordinal(a) == Ordinal(b)
    ensures a == b
  {
  }

  /** Going back after going forward, and forward after going back, returns to the same view. */
  lemma PrevNextInverse(v: ViewMonth)
    requires Valid(v)
    ensures Prev(Next(v)) == v && Next(Prev(v)) == v
  {
    OrdinalInjective(Prev(Next(v)), v);
    OrdinalInjective(Next(Prev(v)), v);
  }

  /** The view after pressing `next-month` k times. */
  function NextN(v: ViewMonth, k: nat): ViewMonth
    decreases k
  {
    if k == 0 then v else Next(NextN(v, k - 1))
  }

  /** The view after pressing `prev-month` k times. */
  function PrevN(v: ViewMonth, k: nat): ViewMonth
    decreases k
  {
    if k == 0 then v else Prev(PrevN(v, k - 1))
  }

  /**
   * Any number of presses moves the view that many months along the
   * timeline and keeps the month index in 0..11.
   */
  lemma {:induction false} PressesMoveAlongTimeline(v: ViewMonth, k: nat)
    requires Valid(v)
    ensures Valid(NextN(v, k)) && Ordinal(NextN(v, k)) == Ordinal(v) + k
    ensures Valid(PrevN(v, k)) && Ordinal(PrevN(v, k)) == Ordinal(v) - k
    decreases k
  {
    if k > 0 {
      PressesMoveAlongTimeline(v, k - 1);
    }
  }
}

=== FILE: popup.dfy ===
/**
 * The day popup (script.js:80-143) as a state machine over an arbitrary
 * sequence of events: opening a popup for a day, pressing a popup's close
 * button, and a probe of some popup finishing its load. Each popup keeps
 * its own `images` list and re-renders its body after every push.
 */
module DayPopup {
  import opened Wrappers
  import opened Assets

  /** A child of the popup element: the header, an image, or the "No events posted." message. */
  datatype Child = Header(title: string) | Picture(src: string) | NoEvents

  /**
   * One popup: the day it was opened for, its 27 probe paths, the indices of
   * the probes whose load has fired (in arrival order), the `images` list,
   * the element's children and whether the element is in the document.
   */
  datatype Popup = Popup(
    year: int, month: int, day: int,
    probes: seq<string>,
    fired: seq<int>,
    images: seq<string>,
    children: seq<Child>,
    attached: bool)

  /** Every popup ever opened, oldest first, and the `currentIframe` reference. */
  datatype Page = Page(popups: seq<Popup>, current: Option<int>)

  datatype Event =
    | Open(year: int, month: int, day: int)
    | Close(popup: int)
    | Load(popup: int, probe: int)

  const EmptyPage: Page := Page([], None)

  function Pictures(images: seq<string>): (r: seq<Child>)
    ensures |r| == |images|
    ensures forall j :: 0 <= j < |images| ==> r[j] == Picture(images[j])
  {
    seq(|images|, j requires 0 <= j < |images| => Picture(images[j]))
  }

  /**
   * The children `renderImages` leaves (script.js:108-128): the first child,
   * which is always the header, then the message or the images.
   */
  function Rerender(header: Child, images: seq<string>): seq<Child> {
    [header] + (if images == [] then [NoEvents] else Pictures(images))
  }

  /**
   * `renderImages` as the script runs it: remove the last child while more
   * than one is left, then append the message or one image per entry.
   */
  method RenderImages(children: seq<Child>, images: seq<string>) returns (out: seq<Child>)
    requires |children| >= 1
    ensures out == Rerender(children[0], images)
    ensures out[0] == children[0]
    ensures images == [] ==> out == [children[0], NoEvents]
    ensures images != [] ==>
      |out| == 1 + |images| && forall j :: 0 <= j < |images| ==> out[j + 1] == Picture(images[j])
  {
    out := children;
    while |out| > 1
      invariant 1 <= |out| <= |children|
      invariant out == children[..|out|]
    {
      out := out[..|out| - 1];
    }
    if |images| == 0 {
      out := out + [NoEvents];
      return;
    }
    var i := 0;
    while i < |images|
      invariant 0 <= i <= |images|
      invariant out == [children[0]] + Pictures(images[..i])
    {
      out := out + [Picture(images[i])];
      i := i + 1;
    }
    assert images[..i] == images;
  }

  /** A freshly opened popup: only its header, no images yet (script.js:85-101). */
  function NewPopup(year: int, month: int, day: int): Popup {
    Popup(year, month, day, PopupProbes(year, month, day), [], [],
      [Header(Title(year, month, day))], true)
  }

  /** Takes a popup element out of the document; removing a detached element changes nothing. */
  function Detach(popups: seq<Popup>, k: int): (r: seq<Popup>)
    ensures |r| == |popups|
    ensures forall j :: 0 <= j < |popups| && j != k ==> r[j] == popups[j]
    ensures 0 <= k < |popups| ==> r[k] == popups[k].(attached := false)
  {
    if 0 <= k < |popups| then popups[k := popups[k].(attached := false)] else popups
  }

  /** The `onload` of probe `i` of a popup: push its path, then re-render (script.js:133, 140). */
  function Loaded(p: Popup, i: int): Popup
    requires 0 <= i < |p.probes|
  {
    var images := p.images + [p.probes[i]];
    p.(fired := p.fired + [i], images := images, children := Rerender(Header(Title(p.year, p.month, p.day)), images))
  }

  /**
   * One event. An image fires its `onload` at most once, so a load of a
   * probe that already fired, or of no probe at all, changes nothing.
   */
  function Step(d: Page, e: Event): Page {
    match e
    case Open(year, month, day) =>
      var popups := if d.current.Some? then Detach(d.popups, d.current.value) else d.popups;
      Page(popups + [NewPopup(year, month, day)], Some(|popups|))
    case Close(k) =>
      Page(Detach(d.popups, k), d.current)
    case Load(k, i) =>
      if 0 <= k < |d.popups| && 0 <= i < |d.popups[k].probes| && i !in d.popups[k].fired
      then Page(d.popups[k := Loaded(d.popups[k], i)], d.current)
      else d
  }

  function Run(d: Page, events: seq<Event>): Page
    decreases |events|
  {
    if events == [] then d else Run(Step(d, events[0]), events[1..])
  }

  /** What every popup looks like at any moment: its header, then exactly its images, in arrival order. */
  predicate PopupOk(p: Popup) {
    && p.probes == PopupProbes(p.year, p.month, p.day)
    && Distinct(p.fired)
    && (forall j :: 0 <= j < |p.fired| ==> 0 <= p.fired[j] < |p.probes|)
    && |p.images| == |p.fired|
    && (forall j :: 0 <= j < |p.images| ==> p.images[j] == p.probes[p.fired[j]])
    && p.children == [Header(Title(p.year, p.month, p.day))] + Pictures(p.images)
  }

  /** Every popup is well formed, `currentIframe` names the newest, and only the newest can be in the document. */
  predicate PageOk(d: Page) {
    && (forall k :: 0 <= k < |d.popups| ==> PopupOk(d.popups[k]))
    && d.current == (if d.popups == [] then None else Some(|d.popups| - 1))
    && (forall k :: 0 <= k < |d.popups| && d.popups[k].attached ==> k == |d.popups| - 1)
  }

  lemma LoadedOk(p: Popup, i: int)
    requires PopupOk(p) && 0 <= i < |p.probes| && i !in p.fired
    ensures PopupOk(Loaded(p, i))
  {
    var q := Loaded(p, i);
    assert q.children == [Header(Title(p.year, p.month, p.day))] + Pictures(q.images);
    forall a, b | 0 <= a < b < |q.fired|
      ensures q.fired[a] != q.fired[b]
    {
      if b == |p.fired| {
        assert q.fired[a] == p.fired[a];
      }
    }
  }

  lemma OpenOk(d: Page, year: int, month: int, day: int)
    requires PageOk(d)
    ensures PageOk(Step(d, Open(year, month, day)))
  {
    var popups := if d.current.Some? then Detach(d.popups, d.current.value) else d.popups;
    DetachAllOk(d);
    NewPopupOk(year, month, day);
    AppendOk(popups, NewPopup(year, month, day));
    assert Step(d, Open(year, month, day)) == Page(popups + [NewPopup(year, month, day)], Some(|popups|));
  }

  /** A well-formed popup appended after popups that are all well formed and out of the document makes a well-formed page naming it. */
  lemma AppendOk(popups: seq<Popup>, q: Popup)
    requires forall k :: 0 <= k < |popups| ==> PopupOk(popups[k]) && !popups[k].attached
    requires PopupOk(q)
    ensures PageOk(Page(popups + [q], Some(|popups|)))
  {
    var r := popups + [q];
    forall k | 0 <= k < |r|
      ensures PopupOk(r[k])
      ensures r[k].attached ==> k == |r| - 1
    {
      if k < |popups| {
        assert r[k] == popups[k];
      }
    }
  }

  /** Removing the current popup leaves every popup well formed and none in the document. */
  lemma DetachAllOk(d: Page)
    requires PageOk(d)
    ensures var popups := if d.current.Some? then Detach(d.popups, d.current.value) else d.popups;
      forall k :: 0 <= k < |popups| ==> PopupOk(popups[k]) && !popups[k].attached
  {
    var popups := if d.current.Some? then Detach(d.popups, d.current.value) else d.popups;
    forall k | 0 <= k < |popups|
      ensures PopupOk(popups[k]) && !popups[k].attached
    {
      PopupOkIgnoresAttached(d.popups[k]);
      assert popups[k] == d.popups[k] || popups[k] == d.popups[k].(attached := false);
    }
  }

  lemma NewPopupOk(year: int, month: int, day: int)
    ensures PopupOk(NewPopup(year, month, day))
  {
    var p := NewPopup(year, month, day);
    assert Pictures(p.images) == [];
  }

  lemma PopupOkIgnoresAttached(p: Popup)
    ensures PopupOk(p.(attached := false)) == PopupOk(p)
  {
  }

  lemma CloseOk(d: Page, k: int)
    requires PageOk(d)
    ensures PageOk(Step(d, Close(k)))
  {
    if 0 <= k < |d.popups| {
      var ps := Detach(d.popups, k);
      PopupOkIgnoresAttached(d.popups[k]);
      forall j | 0 <= j < |ps|
        ensures PopupOk(ps[j])
        ensures ps[j].attached ==> j == |ps| - 1
      {
        if j != k {
          assert ps[j] == d.popups[j];
        }
      }
      assert Step(d, Close(k)) == Page(ps, d.current);
    }
  }

  lemma LoadOk(d: Page, k: int, i: int)
    requires PageOk(d)
    ensures PageOk(Step(d, Load(k, i)))
  {
    if 0 <= k < |d.popups| && 0 <= i < |d.popups[k].probes| && i !in d.popups[k].fired {
      LoadedOk(d.popups[k], i);
      ReplaceOk(d, k, Loaded(d.popups[k], i));
    }
  }

  /** Replacing one popup by a well-formed one that is in the document exactly when the old one was keeps the page well formed. */
  lemma ReplaceOk(d: Page, k: int, q: Popup)
    requires PageOk(d) && 0 <= k < |d.popups| && PopupOk(q) && q.attached == d.popups[k].attached
    ensures PageOk(Page(d.popups[k := q], d.current))
  {
    var ps := d.popups[k := q];
    forall j | 0 <= j < |ps|
      ensures PopupOk(ps[j])
      ensures ps[j].attached ==> j == |ps| - 1
    {
      if j != k {
        assert ps[j] == d.popups[j];
      }
    }
  }

  lemma StepOk(d: Page, e: Event)
    requires PageOk(d)
    ensures PageOk(Step(d, e))
  {
    match e
    case Open(year, month, day) => OpenOk(d, year, month, day);
    case Close(k) => CloseOk(d, k);
    case Load(k, i) => LoadOk(d, k, i);
  }

  /** From any well-formed page, every sequence of events leads to a well-formed page. */
  lemma {:induction false} RunOk(d: Page, events: seq<Event>)
    requires PageOk(d)
    ensures PageOk(Run(d, events))
    decreases |events|
  {
    if events != [] {
      StepOk(d, events[0]);
      RunOk(Step(d, events[0]), events[1..]);
    }
  }

  /** A well-formed popup shows its header and then exactly its images, never the message, and no image twice. */
  lemma PopupShows(p: Popup)
    requires PopupOk(p)
    ensures p.children[0] == Header(Title(p.year, p.month, p.day))
    ensures p.children[1..] == Pictures(p.images)
    ensures NoEvents !in p.children
    ensures Distinct(p.images)
  {
    assert forall j :: 0 <= j < |p.children| ==> p.children[j] != NoEvents;
    assert p.children[1..] == Pictures(p.images);
    ImagesDistinct(p);
  }

  lemma ImagesDistinct(p: Popup)
    requires PopupOk(p)
    ensures Distinct(p.images)
  {
    var ps := PopupProbes(p.year, p.month, p.day);
    PopupProbesDistinct(p.year, p.month, p.day);
    assert Distinct(ps);
    forall a, b | 0 <= a < b < |p.images|
      ensures p.images[a] != p.images[b]
    {
      assert p.fired[a] != p.fired[b];
      assert p.images[a] == ps[p.fired[a]] && p.images[b] == ps[p.fired[b]];
    }
  }

  /**
   * After any events, at most one popup is in the document and it is the
   * current one; each popup shows its header followed by exactly its images,
   * never the "No events posted." message; and no image appears twice.
   */
  lemma ReachablePage(events: seq<Event>)
    ensures var d := Run(EmptyPage, events);
      && PageOk(d)
      && (forall k :: 0 <= k < |d.popups| && d.popups[k].attached ==> d.current == Some(k))
      && forall k :: 0 <= k < |d.popups| ==>
        && d.popups[k].children[0] == Header(Title(d.popups[k].year, d.popups[k].month, d.popups[k].day))
        && d.popups[k].children[1..] == Pictures(d.popups[k].images)
        && NoEvents !in d.popups[k].children
        && Distinct(d.popups[k].images)
  {
    RunOk(EmptyPage, events);
    PageShows(Run(EmptyPage, events));
  }

  lemma PageShows(d: Page)
    requires PageOk(d)
    ensures forall k :: 0 <= k < |d.popups| && d.popups[k].attached ==> d.current == Some(k)
    ensures forall k :: 0 <= k < |d.popups| ==>
      && d.popups[k].children[0] == Header(Title(d.popups[k].year, d.popups[k].month, d.popups[k].day))
      && d.popups[k].children[1..] == Pictures(d.popups[k].images)
      && NoEvents !in d.popups[k].children
      && Distinct(d.popups[k].images)
  {
    forall k | 0 <= k < |d.popups|
      ensures d.popups[k].children[0] == Header(Title(d.popups[k].year, d.popups[k].month, d.popups[k].day))
      ensures d.popups[k].children[1..] == Pictures(d.popups[k].images)
      ensures NoEvents !in d.popups[k].children
      ensures Distinct(d.popups[k].images)
    {
      PopupShows(d.popups[k]);
    }
  }

  /**
   * Opening a popup takes the previous one out of the document and leaves
   * exactly one popup in it: the new one, showing only its header.
   */
  lemma OpenReplaces(d: Page, year: int, month: int, day: int)
    requires PageOk(d)
    ensures var r := Step(d, Open(year, month, day));
      && |r.popups| == |d.popups| + 1
      && r.current == Some(|d.popups|)
      && r.popups[|d.popups|] == NewPopup(year, month, day)
      && r.popups[|d.popups|].children == [Header(Title(year, month, day))]
      && forall k :: 0 <= k < |r.popups| ==> (r.popups[k].attached <==> k == |d.popups|)
  {
  }

  /**
   * Events only ever append to a popup's `images`, and never touch the
   * header child or the day a popup was opened for.
   */
  lemma StepAppendOnly(d: Page, e: Event)
    requires PageOk(d)
    ensures var r := Step(d, e);
      && |d.popups| <= |r.popups|
      && forall k :: 0 <= k < |d.popups| ==>
        && d.popups[k].images <= r.popups[k].images
        && r.popups[k].children[0] == d.popups[k].children[0]
        && r.popups[k].year == d.popups[k].year && r.popups[k].month == d.popups[k].month
        && r.popups[k].day == d.popups[k].day
  {
    var r := Step(d, e);
    forall k | 0 <= k < |d.popups|
      ensures d.popups[k].images <= r.popups[k].images
      ensures r.popups[k].children[0] == d.popups[k].children[0]
      ensures r.popups[k].year == d.popups[k].year && r.popups[k].month == d.popups[k].month
      ensures r.popups[k].day == d.popups[k].day
    {
      StepGrows(d, e, k);
    }
  }

  lemma StepGrows(d: Page, e: Event, k: int)
    requires PageOk(d) && 0 <= k < |d.popups|
    ensures var p := d.popups[k];
      var q := Step(d, e).popups[k];
      && p.images <= q.images
      && |q.children| >= 1 && q.children[0] == p.children[0]
      && q.year == p.year && q.month == p.month && q.day == p.day
  {
    var p := d.popups[k];
    assert PopupOk(p);
    match e
    case Open(year, month, day) =>
      assert Step(d, e).popups[k] == p || Step(d, e).popups[k] == p.(attached := false);
    case Close(c) =>
      assert Step(d, e).popups[k] == p || Step(d, e).popups[k] == p.(attached := false);
    case Load(c, i) =>
      if c == k && 0 <= i < |p.probes| && i !in p.fired {
        assert Step(d, e).popups[k] == Loaded(p, i);
      } else {
        assert Step(d, e).popups[k] == p;
      }
  }

  lemma {:induction false} RunAppendOnly(d: Page, events: seq<Event>)
    requires PageOk(d)
    ensures var r := Run(d, events);
      && PageOk(r)
      && |d.popups| <= |r.popups|
      && forall k :: 0 <= k < |d.popups| ==>
        && d.popups[k].images <= r.popups[k].images
        && r.popups[k].children[0] == d.popups[k].children[0]
    decreases |events|
  {
    if events != [] {
      StepAppendOnly(d, events[0]);
      StepOk(d, events[0]);
      RunAppendOnly(Step(d, events[0]), events[1..]);
    }
  }

  /**
   * A probe's `onload` pushes its path onto its own popup's `images` and
   * re-renders, which appends exactly one image to what the popup shows;
   * `currentIframe`, whether the popup is in the document, and every other
   * popup are left alone.
   */
  lemma LoadPushes(d: Page, k: int, i: int)
    requires PageOk(d) && 0 <= k < |d.popups| && 0 <= i <= |Letters| && i !in d.popups[k].fired
    ensures var r := Step(d, Load(k, i));
      && r.current == d.current
      && |r.popups| == |d.popups|
      && r.popups[k].images == d.popups[k].images + [d.popups[k].probes[i]]
      && r.popups[k].fired == d.popups[k].fired + [i]
      && r.popups[k].children == d.popups[k].children + [Picture(d.popups[k].probes[i])]
      && r.popups[k].attached == d.popups[k].attached
      && forall j :: 0 <= j < |d.popups| && j != k ==> r.popups[j] == d.popups[j]
  {
    var p := d.popups[k];
    var images := p.images + [p.probes[i]];
    assert Pictures(images) == Pictures(p.images) + [Picture(p.probes[i])];
  }

  /** An image fires `onload` once: a second load of the same probe, or a load for no popup, changes nothing. */
  lemma RepeatedLoadIgnored(d: Page, k: int, i: int)
    requires !(0 <= k < |d.popups|) || i in d.popups[k].fired
    ensures Step(d, Load(k, i)) == d
  {
  }

  /**
   * The close button only removes its own popup from the document
   * (script.js:94): `currentIframe` keeps naming it, its images and children
   * stay, and no other popup changes. Closing the current popup leaves none
   * in the document.
   */
  lemma CloseDetaches(d: Page, k: int)
    ensures var r := Step(d, Close(k));
      && r.current == d.current
      && |r.popups| == |d.popups|
      && (0 <= k < |d.popups| ==>
        && !r.popups[k].attached
        && r.popups[k].images == d.popups[k].images
        && r.popups[k].children == d.popups[k].children)
      && (forall j :: 0 <= j < |d.popups| && j != k ==> r.popups[j] == d.popups[j])
      && (PageOk(d) && d.current == Some(k) ==> forall j :: 0 <= j < |r.popups| ==> !r.popups[j].attached)
  {
  }

  /** Number of popups the events open. */
  function Opens(events: seq<Event>): nat
    decreases |events|
  {
    if events == [] then 0 else (if events[0].Open? then 1 else 0) + Opens(events[1..])
  }

  /**
   * A reference for what the loads do to popup `k`, read off the events
   * alone: the probe indices of popup `k` in the order their first load
   * arrives. `popupsOpen` counts the popups opened before `events`, `seen` the
   * probes of popup `k` that fired before. A load for a popup not yet open,
   * for no probe, or for a probe that already fired adds nothing.
   */
  function FirstLoads(events: seq<Event>, k: int, popupsOpen: int, seen: seq<int>): (r: seq<int>)
    ensures forall j :: 0 <= j < |r| ==> 0 <= r[j] <= |Letters| && r[j] !in seen
    ensures Distinct(r)
    decreases |events|
  {
    if events == [] then []
    else
      var e := events[0];
      if e.Open? then FirstLoads(events[1..], k, popupsOpen + 1, seen)
      else if e.Load? && e.popup == k && 0 <= k < popupsOpen && 0 <= e.probe <= |Letters| && e.probe !in seen
      then [e.probe] + FirstLoads(events[1..], k, popupsOpen, seen + [e.probe])
      else FirstLoads(events[1..], k, popupsOpen, seen)
  }

  lemma FirstLoadsCons(e: Event, rest: seq<Event>, k: int, popupsOpen: int, seen: seq<int>)
    ensures FirstLoads([e] + rest, k, popupsOpen, seen) ==
      if e.Open? then FirstLoads(rest, k, popupsOpen + 1, seen)
      else if e.Load? && e.popup == k && 0 <= k < popupsOpen && 0 <= e.probe <= |Letters| && e.probe !in seen
      then [e.probe] + FirstLoads(rest, k, popupsOpen, seen + [e.probe])
      else FirstLoads(rest, k, popupsOpen, seen)
  {
    var events := [e] + rest;
    assert events[0] == e && events[1..] == rest;
  }

  /** The fired probes of popup `k`, none when it does not exist. */
  function FiredOf(d: Page, k: int): seq<int> {
    if 0 <= k < |d.popups| then d.popups[k].fired else []
  }

  /** Opening a popup keeps every popup's fired probes; the new popup has none. */
  lemma OpenKeepsFired(d: Page, year: int, month: int, day: int, k: int)
    ensures |Step(d, Open(year, month, day)).popups| == |d.popups| + 1
    ensures FiredOf(Step(d, Open(year, month, day)), k) == FiredOf(d, k)
  {
  }

  /** One event changes popup `k`'s fired probes exactly as the reference reads it. */
  lemma StepFires(d: Page, e: Event, rest: seq<Event>, k: int)
    requires PageOk(d)
    ensures var r := Step(d, e);
      FiredOf(r, k) + FirstLoads(rest, k, |r.popups|, FiredOf(r, k))
      == FiredOf(d, k) + FirstLoads([e] + rest, k, |d.popups|, FiredOf(d, k))
  {
    FirstLoadsCons(e, rest, k, |d.popups|, FiredOf(d, k));
    match e
    case Open(year, month, day) =>
      OpenKeepsFired(d, year, month, day, k);
    case Close(c) =>
      assert FiredOf(Step(d, e), k) == FiredOf(d, k);
    case Load(c, i) =>
      LoadFires(d, c, i, k);
  }

  lemma LoadFires(d: Page, c: int, i: int, k: int)
    requires PageOk(d)
    ensures c == k && 0 <= k < |d.popups| && 0 <= i <= |Letters| && i !in FiredOf(d, k) ==>
      FiredOf(Step(d, Load(c, i)), k) == FiredOf(d, k) + [i]
    ensures !(c == k && 0 <= k < |d.popups| && 0 <= i <= |Letters| && i !in FiredOf(d, k)) ==>
      FiredOf(Step(d, Load(c, i)), k) == FiredOf(d, k)
  {
    if 0 <= c < |d.popups| {
      assert PopupOk(d.popups[c]);
    }
  }

  /** After any events, popup `k` has fired exactly the probes the reference reads off the events, in the same order. */
  lemma {:induction false} RunFires(d: Page, events: seq<Event>, k: int)
    requires PageOk(d)
    ensures FiredOf(Run(d, events), k) == FiredOf(d, k) + FirstLoads(events, k, |d.popups|, FiredOf(d, k))
    decreases |events|
  {
    if events == [] {
      assert FirstLoads(events, k, |d.popups|, FiredOf(d, k)) == [];
    } else {
      var r := Step(d, events[0]);
      StepOk(d, events[0]);
      RunFires(r, events[1..], k);
      StepFires(d, events[0], events[1..], k);
      assert [events[0]] + events[1..] == events;
    }
  }

  /**
   * The images of popup `k` are the paths of its probes in the order their
   * loads arrive among the events, each once, and each is an asset of the
   * popup's own day.
   */
  lemma ImagesFollowLoads(events: seq<Event>, k: int)
    requires 0 <= k < |Run(EmptyPage, events).popups|
    ensures var p := Run(EmptyPage, events).popups[k];
      var order := FirstLoads(events, k, 0, []);
      && |p.images| == |order|
      && (forall j :: 0 <= j < |order| ==> p.images[j] == PopupProbes(p.year, p.month, p.day)[order[j]])
      && forall j :: 0 <= j < |order| ==>
        ParsePath(p.images[j]) == Some(AssetRef(p.year, p.month, p.day, ProbeVariant(order[j])))
  {
    FiredAreFirstLoads(events, k);
    ImagesParse(Run(EmptyPage, events).popups[k]);
  }

  lemma FiredAreFirstLoads(events: seq<Event>, k: int)
    requires 0 <= k < |Run(EmptyPage, events).popups|
    ensures var p := Run(EmptyPage, events).popups[k];
      PopupOk(p) && p.fired == FirstLoads(events, k, 0, [])
  {
    var d := Run(EmptyPage, events);
    RunOk(EmptyPage, events);
    assert PopupOk(d.popups[k]);
    RunFires(EmptyPage, events, k);
    assert FiredOf(EmptyPage, k) == [];
    assert FiredOf(d, k) == d.popups[k].fired;
  }

  /** Each image of a well-formed popup reads back as its day's asset with the variant of the probe that fired. */
  lemma ImagesParse(p: Popup)
    requires PopupOk(p)
    ensures forall j :: 0 <= j < |p.images| ==>
      ParsePath(p.images[j]) == Some(AssetRef(p.year, p.month, p.day, ProbeVariant(p.fired[j])))
  {
    PopupProbesDistinct(p.year, p.month, p.day);
  }

  /** Every probe in the reference order comes from a load of popup `k` made after it was opened. */
  lemma {:induction false} FirstLoadsFromEvents(events: seq<Event>, k: int, popupsOpen: int, seen: seq<int>, i: int)
    requires i in FirstLoads(events, k, popupsOpen, seen)
    ensures exists j :: 0 <= j < |events| && events[j] == Load(k, i) && 0 <= k < popupsOpen + Opens(events[..j])
    decreases |events|
  {
    var e := events[0];
    var rest := events[1..];
    var n := if e.Open? then popupsOpen + 1 else popupsOpen;
    if e.Load? && e.popup == k && 0 <= k < popupsOpen && 0 <= e.probe <= |Letters| && e.probe !in seen && e.probe == i {
      assert events[..0] == [];
    } else {
      var seen' := if e.Load? && e.popup == k && 0 <= k < popupsOpen && 0 <= e.probe <= |Letters| && e.probe !in seen
        then seen + [e.probe] else seen;
      assert i in FirstLoads(rest, k, n, seen');
      FirstLoadsFromEvents(rest, k, n, seen', i);
      var j :| 0 <= j < |rest| && rest[j] == Load(k, i) && 0 <= k < n + Opens(rest[..j]);
      assert events[..j + 1][1..] == rest[..j];
      assert events[j + 1] == Load(k, i);
    }
  }

  /** A load of popup `k` made after it was opened puts its probe in the reference order, unless it had fired before. */
  lemma {:induction false} FirstLoadsCover(events: seq<Event>, k: int, popupsOpen: int, seen: seq<int>, j: int)
    requires 0 <= j < |events| && events[j].Load? && events[j].popup == k
    requires 0 <= k < popupsOpen + Opens(events[..j]) && 0 <= events[j].probe <= |Letters|
    ensures events[j].probe in seen || events[j].probe in FirstLoads(events, k, popupsOpen, seen)
    decreases |events|
  {
    var e := events[0];
    var rest := events[1..];
    var i := events[j].probe;
    if j == 0 {
      assert events[..0] == [];
    } else {
      var n := if e.Open? then popupsOpen + 1 else popupsOpen;
      var seen' := if e.Load? && e.popup == k && 0 <= k < popupsOpen && 0 <= e.probe <= |Letters| && e.probe !in seen
        then seen + [e.probe] else seen;
      assert events[..j][1..] == rest[..j - 1];
      assert rest[j - 1] == events[j];
      FirstLoadsCover(rest, k, n, seen', j - 1);
    }
  }

  /**
   * A path is among the images of popup `k` exactly when some load event of
   * popup `k`, made after it was opened, is for a probe with that path.
   */
  lemma ImagesAreLoadedProbes(events: seq<Event>, k: int, path: string)
    requires 0 <= k < |Run(EmptyPage, events).popups|
    ensures var p := Run(EmptyPage, events).popups[k];
      path in p.images <==>
        exists j :: 0 <= j < |events| && events[j].Load? && events[j].popup == k && k < Opens(events[..j])
          && 0 <= events[j].probe <= |Letters| && path == PopupProbes(p.year, p.month, p.day)[events[j].probe]
  {
    var p := Run(EmptyPage, events).popups[k];
    var ps := PopupProbes(p.year, p.month, p.day);
    var order := FirstLoads(events, k, 0, []);
    ImagesFollowLoads(events, k);
    if path in p.images {
      var a :| 0 <= a < |p.images| && p.images[a] == path;
      FirstLoadsFromEvents(events, k, 0, [], order[a]);
      var j :| 0 <= j < |events| && events[j] == Load(k, order[a]) && 0 <= k < Opens(events[..j]);
      assert events[j].probe == order[a];
    }
    forall j | 0 <= j < |events| && events[j].Load? && events[j].popup == k && k < Opens(events[..j])
        && 0 <= events[j].probe <= |Letters| && path == ps[events[j].probe]
      ensures path in p.images
    {
      FirstLoadsCover(events, k, 0, [], j);
      var a :| 0 <= a < |order| && order[a] == events[j].probe;
      assert p.images[a] == path;
    }
  }

  lemma RunThree(d: Page, e0: Event, e1: Event, e2: Event)
    ensures Run(d, [e0, e1, e2]) == Step(Step(Step(d, e0), e1), e2)
  {
    var events := [e0, e1, e2];
    assert events[1..] == [e1, e2] && [e1, e2][1..] == [e2] && [e2][1..] == [];
    calc {
      Run(d, events);
      Run(Step(d, e0), [e1, e2]);
      Run(Step(Step(d, e0), e1), [e2]);
      Run(Step(Step(Step(d, e0), e1), e2), []);
    }
  }

  /** The first popup on an empty page: the only one, well formed, showing just its header. */
  lemma FirstOpen(year: int, month: int, day: int)
    ensures var d := Step(EmptyPage, Open(year, month, day));
      PageOk(d) && d.popups == [NewPopup(year, month, day)]
  {
    OpenOk(EmptyPage, year, month, day);
  }

  lemma TwoLoadsSteps(year: int, month: int, day: int, a: int, b: int)
    requires 0 <= a <= |Letters| && 0 <= b <= |Letters| && a != b
    ensures var r := Step(Step(Step(EmptyPage, Open(year, month, day)), Load(0, a)), Load(0, b));
      var ps := PopupProbes(year, month, day);
      && |r.popups| == 1
      && r.popups[0].images == [ps[a], ps[b]]
      && r.popups[0].children == [Header(Title(year, month, day)), Picture(ps[a]), Picture(ps[b])]
  {
    var ps := PopupProbes(year, month, day);
    var d2 := Step(Step(EmptyPage, Open(year, month, day)), Load(0, a));
    OneLoadSteps(year, month, day, a);
    assert b !in d2.popups[0].fired;
    LoadPushes(d2, 0, b);
  }

  lemma OneLoadSteps(year: int, month: int, day: int, a: int)
    requires 0 <= a <= |Letters|
    ensures var r := Step(Step(EmptyPage, Open(year, month, day)), Load(0, a));
      var ps := PopupProbes(year, month, day);
      && PageOk(r)
      && |r.popups| == 1
      && r.popups[0].probes == ps
      && r.popups[0].images == [ps[a]]
      && r.popups[0].fired == [a]
      && r.popups[0].children == [Header(Title(year, month, day)), Picture(ps[a])]
  {
    var d1 := Step(EmptyPage, Open(year, month, day));
    FirstOpen(year, month, day);
    assert d1.popups[0].images == [] && d1.popups[0].fired == [];
    assert d1.popups[0].children == [Header(Title(year, month, day))];
    LoadPushes(d1, 0, a);
    LoadOk(d1, 0, a);
  }

  /** Two different probes of a freshly opened popup load: it shows its header and their two paths, in arrival order. */
  lemma TwoLoadsShow(year: int, month: int, day: int, a: int, b: int)
    requires 0 <= a <= |Letters| && 0 <= b <= |Letters| && a != b
    ensures var r := Run(EmptyPage, [Open(year, month, day), Load(0, a), Load(0, b)]);
      var ps := PopupProbes(year, month, day);
      && |r.popups| == 1
      && r.popups[0].images == [ps[a], ps[b]]
      && r.popups[0].children == [Header(Title(year, month, day)), Picture(ps[a]), Picture(ps[b])]
  {
    RunThree(EmptyPage, Open(year, month, day), Load(0, a), Load(0, b));
    TwoLoadsSteps(year, month, day, a, b);
  }

  /**
   * A day with `day{d}.jpg` and `day{d}b.jpg` among its assets: whichever of
   * the two loads arrives first, the popup shows its header and exactly those
   * two images, in arrival order.
   */
  lemma TwoPhotosInArrivalOrder(year: int, month: int, day: int, baseFirst: bool)
    ensures var events := if baseFirst then [Open(year, month, day), Load(0, 0), Load(0, 2)]
        else [Open(year, month, day), Load(0, 2), Load(0, 0)];
      var base := BasePath(year, month, day);
      var lettered := LetteredPath(year, month, day, 1);
      && |Run(EmptyPage, events).popups| == 1
      && Run(EmptyPage, events).popups[0].images == (if baseFirst then [base, lettered] else [lettered, base])
  {
    PopupProbeAt(year, month, day, 0);
    PopupProbeAt(year, month, day, 2);
    if baseFirst {
      TwoLoadsShow(year, month, day, 0, 2);
    } else {
      TwoLoadsShow(year, month, day, 2, 0);
    }
  }
}

=== FILE: wrappers.dfy ===
/** The optional value returned by the parsers of this model. */
module Wrappers {

  datatype Option<+T> = None | Some(value: T)

}
